=== FILE: README.md ===
# XML texture atlas loader — a Dafny model

This project models the sprite-atlas description loader of a Bevy application
(`src/xml_texture_atlas.rs`). It has three parts:

- The **layout builder** (`parse_texture_atlas`). It reads the children of a
  `<TextureAtlas>` element. Each `<SubTexture>` child becomes one rectangle
  appended to a `TextureAtlasLayout`, plus an entry from its `name` to the
  rectangle's index.
- The **loader** (`XMLTextureAtlasLoader::load`). It scans the document for
  `TextureAtlas` start elements. For each one its top-level loop reaches, it
  loads the image named by
  `imagePath`, relative to the description's directory, runs the builder, and
  publishes the name table with the image and the layout.
- The **runtime resolver** (`update_atlas`). Every tick it copies
  `names[name]` into each sprite's atlas index, once the sprite's atlas is
  loaded and the name is in it.

Files and modules:

| file | module | contents |
|---|---|---|
| `wrappers.dfy` | `Wrappers` | `Option` and `Result`, usable with `:-` |
| `bounded_ints.dfy` | `BoundedInts` | the `u32` range |
| `xml_events.dfy` | `XmlEvents` | qualified names, attributes, tokenizer events, the attribute table |
| `int_parse.dfy` | `IntParse` | `str::parse::<u32>` and the decimal round trip |
| `geometry.dfy` | `Geometry` | `UVec2`, `URect`, `from_corners`, checked addition, `TextureAtlasLayout` |
| `atlas_error.dfy` | `AtlasErrors` | `XMLTextureAtlasError` |
| `layout_builder.dfy` | `LayoutBuilder` | `parse_texture_atlas`, and a second, independent description of its result |
| `atlas_loader.dfy` | `AtlasLoader` | `load` and its top-level event loop |
| `resolver.dfy` | `Resolver` | `update_atlas` |

Modelling choices:

- **XML input.** The tokenizer yields a finite sequence of events: `Start`,
  `End`, `EndDocument`, `Malformed` and `Other`. `Malformed` stands for any
  tokenizer error. Past the end of the sequence the tokenizer answers
  `EndDocument`.
- **Shared cursor.** The loader and the builder share one event reader. Here
  that reader is an explicit cursor. The builder returns the cursor at which
  the loader resumes:
  - just after the atlas element's end tag, or
  - at the `EndDocument` event itself, which the loader then reads again,
    as the real reader keeps answering `EndDocument`.
- **Asset store.** A `Host` value stands for the store. It holds:
  - the description's parent directory, if any;
  - path resolution;
  - the nested direct load. Its outcome is a failure, an image (only its
    size matters), or an asset that is not an image.
- **Builder correctness.** The builder is proved equal to an independent
  description of its result (`ByScan`), built from four pieces:
  - `Extent`: where the builder stops;
  - `ScanChildren`: which children it decodes, in order;
  - `Rects`: the rectangles of those children;
  - `IndexOf`: the table from each name to the index of its last occurrence.

Behaviour of the code worth noting, which the model follows:

- Every `TextureAtlas` start element that the top-level loop reaches is
  processed, matched on its local name only. One nested in the body of an
  atlas being built is not: the builder skips it as an unexpected child. The
  published asset comes from the last processed one before the end of the
  document; it does not come from the first.
- An `EndDocument` before the atlas element's end tag ends the builder
  successfully, with what it has built so far. It is not a parse error in the
  builder. The xml-rs tokenizer, however, reports input that ends inside an
  open element as an error, which is a `Malformed` event here. So a truncated
  file still fails with `Xml`; this success path is taken only by event
  sequences the real tokenizer does not produce.
- The builder stops only at an end tag whose full name (local name, namespace
  and prefix) equals the atlas element's. The loader, by contrast, recognises
  the atlas element by its local name alone.

## Model

| member | source | states |
|---|---|---|
| `XmlEvents.AttrMapLastWins` | src/xml_texture_atlas.rs:167-170 | every attribute's local name becomes a key, and each key holds the value of the last attribute with that local name (namespace and prefix are dropped) |
| `IntParse.ParseU32` | src/xml_texture_atlas.rs:204 | an empty text fails with `Empty`; a leading `-` is an invalid digit; a success has a leading `+` or digit and only decimal digits after it |
| `IntParse.ParseU32Decimal` | src/xml_texture_atlas.rs:187-211 | a parse succeeds exactly when the text after an optional leading `+` is a non-empty run of decimal digits whose value is below 2^32, and yields that value (leading zeros allowed); a run of digits whose value is 2^32 or more fails with `PosOverflow` |
| `IntParse.ParseU32InvalidDigit` | src/xml_texture_atlas.rs:187-211 | the first character after an optional leading `+` that is not a digit makes the parse fail with `InvalidDigit`, provided the digits before it still fit in a u32 |
| `IntParse.ParseU32Examples` | src/xml_texture_atlas.rs:187-211 | `"007"` gives 7, `"+12"` gives 12, `"1x"` and a lone `+` are invalid digits |
| `IntParse.ParseU32RoundTrip` | src/xml_texture_atlas.rs:211 | every u32 value parses back from its decimal rendering, with or without a leading `+` |
| `IntParse.ParseU32Overflow` | src/xml_texture_atlas.rs:187 | the decimal rendering of a number of 2^32 or more fails with `PosOverflow` and never wraps around |
| `Geometry.FromCorners` | src/xml_texture_atlas.rs:214 | the rectangle spanned by two corners: its min and max are the two corners' coordinates, ordered per axis |
| `Geometry.CheckedAdd` | src/xml_texture_atlas.rs:214 | `origin + size` is defined exactly when neither component reaches 2^32 |
| `Geometry.SpanFromOrigin` | src/xml_texture_atlas.rs:180-214 | when `origin + size` fits, the rectangle from the corners `origin` and `origin + size` has `origin` as its min, and its extent on each axis is `size` |
| `Geometry.NewEmpty` | src/xml_texture_atlas.rs:153 | a new layout has the sheet's size and no rectangles |
| `Geometry.AddTexture` | src/xml_texture_atlas.rs:216 | appending a rectangle keeps the earlier ones and the size, and returns the new rectangle's index, the old length |
| `LayoutBuilder.Field` | src/xml_texture_atlas.rs:181-194 | a missing numeric attribute gives `MissingAttribute("SubTexture", key)`; a present one gives its u32 value or `ParseError` with the parse's error kind |
| `LayoutBuilder.DecodeSubTexture` | src/xml_texture_atlas.rs:172-214 | a `SubTexture` fails only with a missing attribute, an unparsable number or an overflowing far corner |
| `LayoutBuilder.DecodeSubTextureChecks` | src/xml_texture_atlas.rs:172-214 | checks fire in order: `name` (reported as "Name"), then `x`, `y`, `width`, `height`, then the overflow of the far corner, reported as `SizeOverflow`; the first failure is the result; a success holds the name and the rectangle from `(x, y)` to `(x + width, y + height)` |
| `LayoutBuilder.Build` | src/xml_texture_atlas.rs:156-228 | the resume cursor never moves backwards or past the input; the sheet size is kept; the builder fails only with XML, missing-attribute, parse or overflow errors |
| `LayoutBuilder.ParseTextureAtlas` | src/xml_texture_atlas.rs:148-231 | on success the layout has the sheet's size and the resume cursor lies between the start and the end of the input |
| `LayoutBuilder.Extent` | src/xml_texture_atlas.rs:217-225 | the builder's stopping point is the first malformed event, end of document, or end tag equal to the parent's full name |
| `LayoutBuilder.ScanChildrenEmpty` | src/xml_texture_atlas.rs:166-219 | a successful scan of the children has no entries exactly when no child is a `SubTexture` start element |
| `LayoutBuilder.IndexOfLastWins` | src/xml_texture_atlas.rs:216 | the names are exactly the children's names, and each maps to the index of its last child (last write wins) |
| `LayoutBuilder.ParseTextureAtlasByScan` | src/xml_texture_atlas.rs:148-231 | the builder equals the independent description: it stops at `Extent`; it fails with the first bad `SubTexture` before that point, or with a malformed event there; otherwise it yields the `Rects` and `IndexOf` of the decoded children and resumes after a matching end tag or at the end of the document |
| `LayoutBuilder.ParseTextureAtlasIndexed` | src/xml_texture_atlas.rs:214-216 | on success: the layout's rectangles are the decoded `SubTexture` children's, one per child, in document order; every name maps to an index below the layout length; the rectangle at that index is the one parsed from the name's last `SubTexture` |
| `LayoutBuilder.ParseTextureAtlasEmptyBody` | src/xml_texture_atlas.rs:153-154 | the layout is empty, and so is the table, exactly when the body has no `SubTexture` child |
| `LayoutBuilder.ParseTextureAtlasDuplicateName` | src/xml_texture_atlas.rs:216 | of two children with one name, the earlier child's rectangle stays in the layout; the name maps to a later index; no name maps to the earlier index |
| `LayoutBuilder.ParseTextureAtlasStopsAtParent` | src/xml_texture_atlas.rs:221-225 | the builder resumes the loader either just after the parent's end tag, with no earlier end tag equal to the parent, or at the end of the document, with no end tag equal to the parent anywhere before it |
| `LayoutBuilder.ParseTextureAtlasExample` | src/xml_texture_atlas.rs:180-216 | one `SubTexture` named `blue_button00.png` at (0, 0) of size 190×49 gives the table `{blue_button00.png: 0}` and one rectangle (0, 0)–(190, 49) |
| `AtlasLoader.ImageOf` | src/xml_texture_atlas.rs:115-119 | a failed nested load gives `DirectLoadError`; an asset that is not an image gives `ImageGetError`; only an image succeeds |
| `AtlasLoader.ProcessAtlas` | src/xml_texture_atlas.rs:93-131 | a processed atlas element resumes the loader within the input and publishes a consistent asset; it never fails with `NoTextureAtlas` or `Io` |
| `AtlasLoader.ProcessAtlasChecks` | src/xml_texture_atlas.rs:93-131 | checks fire in order: a missing `imagePath`, then `Path`, then `AssetPathParseError`, then the image-load errors; a success publishes the delivered image with the builder's layout, table and warnings for the element's children, and resumes where the builder stopped |
| `AtlasLoader.LoadLoop` | src/xml_texture_atlas.rs:82-137 | a success is consistent (the layout is sized like the image, and every name indexes it); once an atlas has been processed, the result is never `NoTextureAtlas` |
| `AtlasLoader.Load` | src/xml_texture_atlas.rs:76-140 | an unreadable source, and only that, gives `Io`; a success is consistent |
| `AtlasLoader.LoadLoopSkips` | src/xml_texture_atlas.rs:133-135 | top-level events other than malformed markup, end of document and `TextureAtlas` start elements are ignored |
| `AtlasLoader.LoadNoAtlas` | src/xml_texture_atlas.rs:134-139 | the load fails with `NoTextureAtlas` exactly when the document ends before any `TextureAtlas` start element or malformed event |
| `AtlasLoader.LoadFirstAtlasFails` | src/xml_texture_atlas.rs:99-122 | a failure while processing the first `TextureAtlas` element is the load's failure; it is not swallowed |
| `AtlasLoader.LoadMissingImagePath` | src/xml_texture_atlas.rs:99-104 | a first atlas element without `imagePath` fails with `MissingAttribute("TextureAtlas", "imagePath")` for every host; directory, resolution and image load are never consulted |
| `AtlasLoader.ProcessAtlasBuilds` | src/xml_texture_atlas.rs:113-131 | once the image is delivered, the element's outcome is the builder's: its error unchanged, or a success publishing the delivered image with the builder's layout, table and warnings and resuming where the builder stopped |
| `AtlasLoader.LoadLoopMalformed` | src/xml_texture_atlas.rs:85 | malformed markup the top-level loop does not skip fails the load with `Xml`, whatever atlas was processed before |
| `AtlasLoader.LoadLoopEnd` | src/xml_texture_atlas.rs:131-139 | at the end of the document the loop returns the atlas processed last, or `NoTextureAtlas` when there is none |
| `AtlasLoader.LoadLastAtlasWins` | src/xml_texture_atlas.rs:82-139 | a load succeeds with `p` exactly when the loop reaches an atlas element that is processed into `p` and after which no other atlas element comes before the end of the document (later atlas elements replace earlier ones) |
| `AtlasLoader.LoadSingleAtlas` | src/xml_texture_atlas.rs:82-139 | when the first atlas element the loop reaches is processed into `p` and no other follows it before the end, the load succeeds with `p` |
| `AtlasLoader.LoadEmptyAtlas` | src/xml_texture_atlas.rs:113-131 | for the atlas element a successful load publishes, the table is empty, and so is the layout, exactly when its body has no `SubTexture` child |
| `AtlasLoader.LoadEmptyAtlasSucceeds` | src/xml_texture_atlas.rs:99-139 | a first atlas element whose image the host delivers, whose body builds without `SubTexture` children and after which no atlas element comes, loads successfully into an empty table and an empty layout sized like the image |
| `AtlasLoader.LoadEmptyAtlasExample` | src/xml_texture_atlas.rs:113-131 | the document `<TextureAtlas imagePath=…></TextureAtlas>` loads into an empty table and an empty layout sized like the delivered image |
| `Resolver.ResolveOne` | src/xml_texture_atlas.rs:238-242 | one sprite keeps name and atlas; its index becomes the looked-up index when there is one; a warning is issued exactly when the atlas is loaded but lacks the name |
| `Resolver.UpdateAtlas` | src/xml_texture_atlas.rs:233-245 | a tick returns exactly one sprite per input sprite; what each becomes is stated by `UpdateAtlasResolves` |
| `Resolver.UpdateAtlasResolves` | src/xml_texture_atlas.rs:237-244 | each sprite's index becomes `names[name]` when its atlas is loaded and has the name, and is unchanged otherwise; the warnings are exactly the names missing from loaded atlases |
| `Resolver.UpdateAtlasIdempotent` | src/xml_texture_atlas.rs:237-244 | running a tick twice equals running it once, sprites and warnings alike |
| `Resolver.UpdateAtlasSplits` | src/xml_texture_atlas.rs:237 | sprites are resolved independently: a tick over a concatenation is the concatenation of the ticks |
| `Resolver.UpdateAtlasExample` | src/xml_texture_atlas.rs:238-241 | with `"a"` mapped to 3, the sprite named `"a"` gets 3; the sprite named `"missing"` keeps its index and is reported; a second tick changes nothing |

## Left out

- Plugin registration and the `.xml` extension list (lines 20-26, 143-145) are framework wiring. `src/main.rs` builds the window and UI scene and is not part of this model.
- Reading the bytes (line 78) is the choice of source: `Unreadable` gives `Io`. The xml-rs tokenizer is replaced by its event sequence, and all of its errors are one `Malformed` event.
- The asset store's internals are the `Host`: `asset_path().parent()`, `resolve`, `load_direct` and `take::<Image>`. `begin_labeled_asset` and `add_labeled_asset` appear only as the `image` and `layout` fields of the published record. The nested load is a plain function call, so the async suspension is not modelled.
- Image decoding and pixel data are left out; only the image's size is kept.
- `warn!` logging (lines 218, 241) is not a side effect here. The builder returns the names of the skipped child elements, and the resolver returns the missing sprite names.
- Bevy's `Query` and `Res` are left out. Sprites are a sequence in query order, and the store is a map from handle to the name table of each loaded atlas.
- `origin + size` is unchecked u32 addition in the source. It panics in debug builds and wraps in release builds. The model turns it into the error `SizeOverflow`, which has no counterpart in the source's enum. The release-build wrap-around is not modelled.
- Indices are `usize` in the source and unbounded `nat` here.

=== FILE: atlas_error.dfy ===
/** The failures of an atlas-description load (`XMLTextureAtlasError`). */
module AtlasErrors {

  import IntParse

  datatype AtlasError =
      /** The bytes of the description could not be read. */
    | Io
      /** The tokenizer reported malformed markup. */
    | Xml
      /** A numeric attribute is not a u32. */
    | ParseError(kind: IntParse.IntErrorKind)
      /** `element` lacks the required attribute `attribute`. */
    | MissingAttribute(element: string, attribute: string)
      /** The description's own path has no parent directory. */
    | Path
      /** The nested load of the image failed. */
    | DirectLoadError
      /** The image path does not resolve to a valid asset path. */
    | AssetPathParseError
      /** The nested load produced something that is not an image. */
    | ImageGetError
      /** The document ended without any atlas element. */
    | NoTextureAtlas
      /** `origin + size` does not fit in u32. The source performs this
          addition unchecked; this error stands for the panic a checked
          build raises there, and has no counterpart in the source's enum. */
    | SizeOverflow
}

=== FILE: atlas_loader.dfy ===
/**
 * The atlas loader (`XMLTextureAtlasLoader::load`): scans the top-level
 * events for `TextureAtlas` elements, loads the image each one names through
 * the asset store, runs the layout builder on its children and publishes the
 * name table together with the image and the layout.
 *
 * The asset store is a `Host`: the directory of the description file (if it
 * has one), path resolution against it, and the nested direct load of the
 * image, which yields only what the loader uses of the image, its size.
 */
module AtlasLoader {

  import opened Wrappers
  import opened XmlEvents
  import opened Geometry
  import opened AtlasErrors
  import opened LayoutBuilder

  /** The outcome of the nested direct load of the image. */
  datatype DirectLoad =
    | LoadFailed
      /** An image of the given size. */
    | LoadedImage(size: UVec2)
      /** An asset that is not an image. */
    | LoadedOther

  datatype Host = Host(
    parent: Option<string>,
    resolve: (string, string) -> Option<string>,
    loadDirect: string -> DirectLoad)

  /** The description's bytes as the tokenizer sees them. */
  datatype Source = Unreadable | Tokens(events: seq<Event>)

  /** A loaded atlas: the name table (the primary asset), the size of the
      image published under the label "image", the layout published under
      the label "layout", and the skipped child elements (warnings). */
  datatype Published = Published(
    names: map<string, nat>,
    image: UVec2,
    layout: TextureAtlasLayout,
    unexpected: seq<QName>)

  /** The layout is sized like the image and every name maps to one of its
      rectangles. */
  predicate Consistent(p: Published) {
    && p.layout.size == p.image
    && forall name :: name in p.names ==> p.names[name] < |p.layout.textures|
  }

  predicate IsAtlasStart(e: Event) {
    e.Start? && e.name.local == "TextureAtlas"
  }

  /** The image's size, or the error the nested load ends in. */
  function ImageOf(load: DirectLoad): (r: Result<UVec2, AtlasError>)
    ensures r.Success? <==> load.LoadedImage?
    ensures load.LoadFailed? ==> r == Failure(DirectLoadError)
    ensures load.LoadedOther? ==> r == Failure(ImageGetError)
  {
    match load
    case LoadFailed => Failure(DirectLoadError)
    case LoadedOther => Failure(ImageGetError)
    case LoadedImage(size) => Success(size)
  }

  /** Handles one `TextureAtlas` element named `name` with attribute table
      `attrs`, whose children start at `pos` (see `ProcessAtlasChecks` for
      the order in which its checks fire). */
  function ProcessAtlas(events: seq<Event>, pos: nat, name: QName, attrs: map<string, string>, host: Host)
    : (r: Result<(Published, nat), AtlasError>)
    requires pos <= |events|
    ensures r.Success? ==> pos <= r.value.1 <= |events| && Consistent(r.value.0)
    ensures r.Failure? ==> r.error != NoTextureAtlas && r.error != Io
  {
    if "imagePath" !in attrs then Failure(MissingAttribute("TextureAtlas", "imagePath"))
    else
      var dir :- host.parent.ToResult(Path);
      var path :- host.resolve(dir, attrs["imagePath"]).ToResult(AssetPathParseError);
      var image :- ImageOf(host.loadDirect(path));
      var built :- ParseTextureAtlas(events, pos, name, image);
      ParseTextureAtlasIndexed(events, pos, name, image);
      Success((Published(built.names, image, built.layout, built.unexpected), built.cursor))
  }

  /**
   * The checks of `ProcessAtlas` fire in order: `imagePath` present, the
   * description has a directory, the path resolves, the nested load yields
   * an image, the children build. The first failure is the result and no
   * asset is produced. A success publishes the delivered image together
   * with the builder's layout, table and warnings, and resumes the loader
   * where the builder stopped.
   */
  lemma ProcessAtlasChecks(events: seq<Event>, pos: nat, name: QName, attrs: map<string, string>, host: Host)
    requires pos <= |events|
    ensures var r := ProcessAtlas(events, pos, name, attrs, host);
            "imagePath" !in attrs ==> r == Failure(MissingAttribute("TextureAtlas", "imagePath"))
    ensures var r := ProcessAtlas(events, pos, name, attrs, host);
            "imagePath" in attrs && host.parent.None? ==> r == Failure(Path)
    ensures var r := ProcessAtlas(events, pos, name, attrs, host);
            "imagePath" in attrs && host.parent.Some?
            && host.resolve(host.parent.value, attrs["imagePath"]).None?
            ==> r == Failure(AssetPathParseError)
    ensures var r := ProcessAtlas(events, pos, name, attrs, host);
            "imagePath" in attrs && host.parent.Some?
            && host.resolve(host.parent.value, attrs["imagePath"]).Some?
            && !host.loadDirect(host.resolve(host.parent.value, attrs["imagePath"]).value).LoadedImage?
            ==> r == Failure(ImageOf(host.loadDirect(host.resolve(host.parent.value, attrs["imagePath"]).value)).error)
    ensures var r := ProcessAtlas(events, pos, name, attrs, host);
            r.Success? ==>
              && "imagePath" in attrs && host.parent.Some?
              && host.resolve(host.parent.value, attrs["imagePath"]).Some?
              && var (p, cursor) := r.value;
                 && host.loadDirect(host.resolve(host.parent.value, attrs["imagePath"]).value)
                    == LoadedImage(p.image)
                 && ParseTextureAtlas(events, pos, name, p.image)
                    == Success(Built(p.layout, p.names, p.unexpected, cursor))
  {
  }

  /** Once the image is delivered, the element's outcome is the builder's:
      its error, or the delivered image published with the builder's layout,
      table and warnings, resuming where the builder stopped. */
  lemma ProcessAtlasBuilds(events: seq<Event>, pos: nat, name: QName, attrs: map<string, string>, host: Host,
                           path: string, size: UVec2)
    requires pos <= |events|
    requires "imagePath" in attrs && host.parent.Some?
    requires host.resolve(host.parent.value, attrs["imagePath"]) == Some(path)
    requires host.loadDirect(path) == LoadedImage(size)
    ensures ProcessAtlas(events, pos, name, attrs, host)
            == match ParseTextureAtlas(events, pos, name, size)
               case Failure(e) => Failure(e)
               case Success(b) => Success((Published(b.names, size, b.layout, b.unexpected), b.cursor))
  {
  }

  /** The loader's top-level loop from `pos`, where `finished` is the atlas
      processed most recently, if any. */
  function LoadLoop(events: seq<Event>, pos: nat, host: Host, finished: Option<Published>)
    : (r: Result<Published, AtlasError>)
    requires pos <= |events|
    requires finished.Some? ==> Consistent(finished.value)
    ensures r.Success? ==> Consistent(r.value)
    ensures finished.Some? ==> r != Failure(NoTextureAtlas)
    ensures r.Failure? ==> r.error != Io
    decreases |events| - pos
  {
    match At(events, pos)
    case Malformed => Failure(Xml)
    case EndDocument =>
      if finished.Some? then Success(finished.value) else Failure(NoTextureAtlas)
    case Start(name, attributes) =>
      if name.local == "TextureAtlas" then
        var (published, cursor) :- ProcessAtlas(events, pos + 1, name, AttrMap(attributes), host);
        LoadLoop(events, cursor, host, Some(published))
      else
        LoadLoop(events, pos + 1, host, finished)
    case End(_) => LoadLoop(events, pos + 1, host, finished)
    case Other => LoadLoop(events, pos + 1, host, finished)
  }

  /** `XMLTextureAtlasLoader::load` */
  function Load(source: Source, host: Host): (r: Result<Published, AtlasError>)
    ensures source.Unreadable? <==> r == Failure(Io)
    ensures r.Success? ==> Consistent(r.value)
  {
    match source
    case Unreadable => Failure(Io)
    case Tokens(events) => LoadLoop(events, 0, host, None)
  }

  // ---------------------------------------------------------------------
  // Properties of the loop
  // ---------------------------------------------------------------------

  /** The first event at or after `pos` the loop does not skip: malformed
      markup, the end of the document, or a `TextureAtlas` start element. */
  function NextStop(events: seq<Event>, pos: nat): (stop: nat)
    requires pos <= |events|
    ensures pos <= stop <= |events|
    ensures var e := At(events, stop); e.Malformed? || e.EndDocument? || IsAtlasStart(e)
    ensures forall k :: pos <= k < stop ==>
              !events[k].Malformed? && !events[k].EndDocument? && !IsAtlasStart(events[k])
    decreases |events| - pos
  {
    var e := At(events, pos);
    if e.Malformed? || e.EndDocument? || IsAtlasStart(e) then pos else NextStop(events, pos + 1)
  }

  /** Every other top-level event is ignored. */
  lemma {:induction false} LoadLoopSkips(events: seq<Event>, pos: nat, host: Host, finished: Option<Published>)
    requires pos <= |events|
    requires finished.Some? ==> Consistent(finished.value)
    ensures LoadLoop(events, pos, host, finished) == LoadLoop(events, NextStop(events, pos), host, finished)
    decreases |events| - pos
  {
    var e := At(events, pos);
    if !(e.Malformed? || e.EndDocument? || IsAtlasStart(e)) {
      LoadLoopSkips(events, pos + 1, host, finished);
    }
  }

  /** The load fails with `NoTextureAtlas` exactly when the document ends
      before any `TextureAtlas` start element or malformed markup. */
  lemma LoadNoAtlas(events: seq<Event>, host: Host)
    ensures Load(Tokens(events), host) == Failure(NoTextureAtlas)
            <==> At(events, NextStop(events, 0)).EndDocument?
  {
    LoadLoopSkips(events, 0, host, None);
  }

  /** When the first `TextureAtlas` element fails, the load fails the same
      way, whatever follows. */
  lemma LoadFirstAtlasFails(events: seq<Event>, host: Host)
    requires IsAtlasStart(At(events, NextStop(events, 0)))
    ensures var k := NextStop(events, 0);
            var r := ProcessAtlas(events, k + 1, events[k].name, AttrMap(events[k].attributes), host);
            r.Failure? ==> Load(Tokens(events), host) == Failure(r.error)
  {
    LoadLoopSkips(events, 0, host, None);
  }

  /** A first `TextureAtlas` element without `imagePath` fails the load with
      the missing-attribute error, for every host: the directory, the path
      resolution and the image load are never consulted. */
  lemma LoadMissingImagePath(events: seq<Event>, host: Host)
    requires IsAtlasStart(At(events, NextStop(events, 0)))
    requires "imagePath" !in AttrMap(At(events, NextStop(events, 0)).attributes)
    ensures Load(Tokens(events), host) == Failure(MissingAttribute("TextureAtlas", "imagePath"))
  {
    var k := NextStop(events, 0);
    ProcessAtlasChecks(events, k + 1, events[k].name, AttrMap(events[k].attributes), host);
    LoadFirstAtlasFails(events, host);
  }

  /** The `TextureAtlas` element at `k` is processed into `p`, and no other
      one follows it before the document ends. */
  ghost predicate FinalAtlasAt(events: seq<Event>, k: int, host: Host, p: Published) {
    && 0 <= k < |events|
    && IsAtlasStart(events[k])
    && var r := ProcessAtlas(events, k + 1, events[k].name, AttrMap(events[k].attributes), host);
       && r.Success?
       && r.value.0 == p
       && At(events, NextStop(events, r.value.1)).EndDocument?
  }

  /** At a `TextureAtlas` start element the loop processes it and, on
      success, goes on after it with its result as the latest atlas. */
  lemma LoadLoopAtAtlas(events: seq<Event>, k: nat, host: Host, finished: Option<Published>)
    requires k < |events| && IsAtlasStart(events[k])
    requires finished.Some? ==> Consistent(finished.value)
    ensures var r := ProcessAtlas(events, k + 1, events[k].name, AttrMap(events[k].attributes), host);
            LoadLoop(events, k, host, finished)
            == if r.Failure? then Failure(r.error) else LoadLoop(events, r.value.1, host, Some(r.value.0))
  {
  }

  /** The loop started at `pos` reaches the `TextureAtlas` element at `k`:
      `k` is the next one it stops at, or every atlas element it processes
      before `k` succeeds. */
  ghost predicate Reaches(events: seq<Event>, pos: nat, host: Host, k: int)
    requires pos <= |events|
    decreases |events| - pos
  {
    var j := NextStop(events, pos);
    && j < |events|
    && IsAtlasStart(events[j])
    && (|| k == j
        || var r := ProcessAtlas(events, j + 1, events[j].name, AttrMap(events[j].attributes), host);
           r.Success? && Reaches(events, r.value.1, host, k))
  }

  /** Malformed markup the loop does not skip fails the load with `Xml`,
      whatever has been processed before. */
  lemma LoadLoopMalformed(events: seq<Event>, pos: nat, host: Host, finished: Option<Published>)
    requires pos <= |events|
    requires finished.Some? ==> Consistent(finished.value)
    requires At(events, NextStop(events, pos)).Malformed?
    ensures LoadLoop(events, pos, host, finished) == Failure(Xml)
  {
    LoadLoopSkips(events, pos, host, finished);
  }

  /** At the end of the document the loop returns the latest atlas, or
      `NoTextureAtlas` when there is none. */
  lemma LoadLoopEnd(events: seq<Event>, pos: nat, host: Host, finished: Option<Published>)
    requires pos <= |events|
    requires finished.Some? ==> Consistent(finished.value)
    requires At(events, NextStop(events, pos)).EndDocument?
    ensures LoadLoop(events, pos, host, finished)
            == if finished.Some? then Success(finished.value) else Failure(NoTextureAtlas)
  {
    LoadLoopSkips(events, pos, host, finished);
  }

  /** A successful loop from `pos` returns the latest atlas at the end of
      the document, or the result of an atlas element it reaches after
      which no other comes before the end. */
  lemma {:induction false} LoadLoopLastAtlas(events: seq<Event>, pos: nat, host: Host, finished: Option<Published>,
                                             p: Published)
    requires pos <= |events|
    requires finished.Some? ==> Consistent(finished.value)
    requires LoadLoop(events, pos, host, finished) == Success(p)
    ensures || (finished == Some(p) && At(events, NextStop(events, pos)).EndDocument?)
            || exists k :: Reaches(events, pos, host, k) && FinalAtlasAt(events, k, host, p)
    decreases |events| - pos, 1
  {
    LoadLoopSkips(events, pos, host, finished);
    var j := NextStop(events, pos);
    if IsAtlasStart(At(events, j)) {
      LoadLoopLastFrom(events, j, host, finished, p);
      ReachesFromStop(events, pos, host);
    }
  }

  /** The loop reaches the same atlas elements from `pos` as from the
      first event at or after `pos` it does not skip. */
  lemma ReachesFromStop(events: seq<Event>, pos: nat, host: Host)
    requires pos <= |events|
    ensures forall k :: Reaches(events, pos, host, k) <==> Reaches(events, NextStop(events, pos), host, k)
  {
  }

  /** The step of `LoadLoopLastAtlas` at an atlas element. */
  lemma {:induction false} LoadLoopLastFrom(events: seq<Event>, j: nat, host: Host, finished: Option<Published>,
                                            p: Published)
    requires j < |events| && IsAtlasStart(events[j])
    requires finished.Some? ==> Consistent(finished.value)
    requires LoadLoop(events, j, host, finished) == Success(p)
    ensures exists k :: Reaches(events, j, host, k) && FinalAtlasAt(events, k, host, p)
    decreases |events| - j, 0
  {
    LoadLoopAtAtlas(events, j, host, finished);
    var r := ProcessAtlas(events, j + 1, events[j].name, AttrMap(events[j].attributes), host);
    LoadLoopLastAtlas(events, r.value.1, host, Some(r.value.0), p);
    assert NextStop(events, j) == j;
    if r.value.0 == p && At(events, NextStop(events, r.value.1)).EndDocument? {
      assert Reaches(events, j, host, j) && FinalAtlasAt(events, j, host, p);
    } else {
      var k :| Reaches(events, r.value.1, host, k) && FinalAtlasAt(events, k, host, p);
      assert Reaches(events, j, host, k);
    }
  }

  /** The loop at the final atlas element returns what it is processed into. */
  lemma LoadLoopFinalAtlas(events: seq<Event>, k: nat, host: Host, finished: Option<Published>, p: Published)
    requires finished.Some? ==> Consistent(finished.value)
    requires FinalAtlasAt(events, k, host, p)
    ensures LoadLoop(events, k, host, finished) == Success(p)
  {
    LoadLoopAtAtlas(events, k, host, finished);
    var r := ProcessAtlas(events, k + 1, events[k].name, AttrMap(events[k].attributes), host);
    LoadLoopEnd(events, r.value.1, host, Some(p));
  }

  /** Once the loop reaches an atlas element that is processed into `p`
      and is followed by no other before the end, it returns `p`. */
  lemma {:induction false} LoadLoopReachesFinal(events: seq<Event>, pos: nat, host: Host,
                                                finished: Option<Published>, k: int, p: Published)
    requires pos <= |events|
    requires finished.Some? ==> Consistent(finished.value)
    requires Reaches(events, pos, host, k) && FinalAtlasAt(events, k, host, p)
    ensures LoadLoop(events, pos, host, finished) == Success(p)
    decreases |events| - pos, 1
  {
    LoadLoopSkips(events, pos, host, finished);
    var j := NextStop(events, pos);
    if k == j {
      LoadLoopFinalAtlas(events, j, host, finished, p);
    } else {
      LoadLoopPastAtlas(events, j, host, finished, k, p);
    }
  }

  /** The step of `LoadLoopReachesFinal` over an atlas element before the
      final one. */
  lemma {:induction false} LoadLoopPastAtlas(events: seq<Event>, j: nat, host: Host,
                                             finished: Option<Published>, k: int, p: Published)
    requires j < |events| && IsAtlasStart(events[j])
    requires finished.Some? ==> Consistent(finished.value)
    requires var r := ProcessAtlas(events, j + 1, events[j].name, AttrMap(events[j].attributes), host);
             r.Success? && Reaches(events, r.value.1, host, k)
    requires FinalAtlasAt(events, k, host, p)
    ensures LoadLoop(events, j, host, finished) == Success(p)
    decreases |events| - j, 0
  {
    LoadLoopAtAtlas(events, j, host, finished);
    var r := ProcessAtlas(events, j + 1, events[j].name, AttrMap(events[j].attributes), host);
    LoadLoopReachesFinal(events, r.value.1, host, Some(r.value.0), k, p);
  }

  /** A load succeeds with `p` exactly when the loop reaches an atlas
      element that is processed into `p` and after which no other atlas
      element comes before the end of the document: later atlas elements
      replace earlier ones. */
  lemma LoadLastAtlasWins(events: seq<Event>, host: Host, p: Published)
    ensures Load(Tokens(events), host) == Success(p)
            <==> exists k :: Reaches(events, 0, host, k) && FinalAtlasAt(events, k, host, p)
  {
    if Load(Tokens(events), host) == Success(p) {
      LoadLoopLastAtlas(events, 0, host, None, p);
    }
    if exists k :: Reaches(events, 0, host, k) && FinalAtlasAt(events, k, host, p) {
      var k :| Reaches(events, 0, host, k) && FinalAtlasAt(events, k, host, p);
      LoadLoopReachesFinal(events, 0, host, None, k, p);
    }
  }

  /** When the first `TextureAtlas` element is processed into `p` and no
      other follows it before the end of the document, the load publishes
      `p`. */
  lemma LoadSingleAtlas(events: seq<Event>, host: Host, p: Published)
    requires FinalAtlasAt(events, NextStop(events, 0), host, p)
    ensures Load(Tokens(events), host) == Success(p)
  {
    assert Reaches(events, 0, host, NextStop(events, 0));
    LoadLoopReachesFinal(events, 0, host, None, NextStop(events, 0), p);
  }

  /** The published table is empty, and so is the published layout,
      exactly when the body of the atlas element the load publishes has no
      `SubTexture` child. */
  lemma LoadEmptyAtlas(events: seq<Event>, host: Host, k: nat)
    requires Load(Tokens(events), host).Success?
    requires FinalAtlasAt(events, k, host, Load(Tokens(events), host).value)
    ensures var p := Load(Tokens(events), host).value;
            var children := Children(events, k + 1, events[k].name);
            && (p.names == map[] <==> forall i :: 0 <= i < |children| ==> !IsSubTextureStart(children[i]))
            && (|p.layout.textures| == 0 <==> forall i :: 0 <= i < |children| ==> !IsSubTextureStart(children[i]))
  {
    var p := Load(Tokens(events), host).value;
    ProcessAtlasChecks(events, k + 1, events[k].name, AttrMap(events[k].attributes), host);
    ParseTextureAtlasEmptyBody(events, k + 1, events[k].name, p.image);
  }

  /** When the first atlas element names an image the host delivers, its
      body builds without `SubTexture` children, and no other atlas element
      follows before the end, the load succeeds with an empty table and an
      empty layout sized like the image. */
  lemma LoadEmptyAtlasSucceeds(events: seq<Event>, host: Host, path: string, size: UVec2)
    requires var k := NextStop(events, 0);
             && IsAtlasStart(At(events, k))
             && "imagePath" in AttrMap(events[k].attributes) && host.parent.Some?
             && host.resolve(host.parent.value, AttrMap(events[k].attributes)["imagePath"]) == Some(path)
             && host.loadDirect(path) == LoadedImage(size)
    requires var k := NextStop(events, 0);
             var built := ParseTextureAtlas(events, k + 1, events[k].name, size);
             && built.Success?
             && At(events, NextStop(events, built.value.cursor)).EndDocument?
             && forall i :: k + 1 <= i < Extent(events, k + 1, events[k].name) ==> !IsSubTextureStart(events[i])
    ensures var k := NextStop(events, 0);
            var built := ParseTextureAtlas(events, k + 1, events[k].name, size);
            Load(Tokens(events), host) == Success(Published(map[], size, NewEmpty(size), built.value.unexpected))
  {
    var k := NextStop(events, 0);
    var name := events[k].name;
    ProcessAtlasBuilds(events, k + 1, name, AttrMap(events[k].attributes), host, path, size);
    var built := ParseTextureAtlas(events, k + 1, name, size).value;
    ParseTextureAtlasEmptyBody(events, k + 1, name, size);
    var children := Children(events, k + 1, name);
    assert forall i :: 0 <= i < |children| ==> children[i] == events[k + 1 + i];
    assert built.layout == NewEmpty(size);
    LoadSingleAtlas(events, host, Published(map[], size, NewEmpty(size), built.unexpected));
  }

  /** A `TextureAtlas` without children loads into an empty table and an
      empty layout sized like the image the host delivers. */
  lemma LoadEmptyAtlasExample(name: QName, imagePath: string, host: Host, dir: string, path: string, size: UVec2)
    requires name.local == "TextureAtlas"
    requires host.parent == Some(dir)
    requires host.resolve(dir, imagePath) == Some(path)
    requires host.loadDirect(path) == LoadedImage(size)
    ensures var attrs := [Attribute(QName("imagePath", None, None), imagePath)];
            Load(Tokens([Start(name, attrs), End(name), EndDocument]), host)
            == Success(Published(map[], size, TextureAtlasLayout(size, []), []))
  {
    var attrs := [Attribute(QName("imagePath", None, None), imagePath)];
    var events := [Start(name, attrs), End(name), EndDocument];
    assert attrs[..0] == [];
    assert AttrMap(attrs) == map["imagePath" := imagePath];
    var empty := NewEmpty(size);
    assert ParseTextureAtlas(events, 1, name, size) == Success(Built(empty, map[], [], 2));
    var published := Published(map[], size, empty, []);
    assert ProcessAtlas(events, 1, name, AttrMap(attrs), host) == Success((published, 2));
    assert LoadLoop(events, 2, host, Some(published)) == Success(published);
  }
}

=== FILE: bounded_ints.dfy ===
/** The machine integer width the loader works with. */
module BoundedInts {

  const U32_LIMIT: nat := 0x1_0000_0000

  /** `u32`: the naturals below 2^32. */
  type U32 = x: nat | x < U32_LIMIT
}

=== FILE: geometry.dfy ===
/**
 * The unsigned pixel geometry of an atlas: 2-component u32 vectors,
 * axis-aligned rectangles and the indexed layout of rectangles.
 */
module Geometry {

  import opened Wrappers
  import opened BoundedInts

  datatype UVec2 = UVec2(x: U32, y: U32)

  /** A rectangle from `min` (inclusive) to `max` (exclusive). */
  datatype URect = URect(min: UVec2, max: UVec2)

  function MinU32(a: U32, b: U32): U32 { if a <= b then a else b }

  function MaxU32(a: U32, b: U32): U32 { if a <= b then b else a }

  /** The rectangle spanned by two corners in any order (`URect::from_corners`). */
  function FromCorners(p0: UVec2, p1: UVec2): (r: URect)
    ensures r.min.x <= r.max.x && r.min.y <= r.max.y
    ensures {r.min.x, r.max.x} == {p0.x, p1.x}
    ensures {r.min.y, r.max.y} == {p0.y, p1.y}
  {
    URect(UVec2(MinU32(p0.x, p1.x), MinU32(p0.y, p1.y)),
          UVec2(MaxU32(p0.x, p1.x), MaxU32(p0.y, p1.y)))
  }

  /** Component-wise u32 addition; None when either component would not fit. */
  function CheckedAdd(a: UVec2, b: UVec2): (r: Option<UVec2>)
    ensures r.Some? <==> a.x + b.x < U32_LIMIT && a.y + b.y < U32_LIMIT
    ensures r.Some? ==> r.value.x == a.x + b.x && r.value.y == a.y + b.y
  {
    if a.x + b.x < U32_LIMIT && a.y + b.y < U32_LIMIT
    then Some(UVec2(a.x + b.x, a.y + b.y))
    else None
  }

  /** The rectangle `[origin, origin + size)`: since the far corner is never
      below the origin, `from_corners` keeps the origin as the minimum. */
  lemma SpanFromOrigin(origin: UVec2, size: UVec2, corner: UVec2)
    requires CheckedAdd(origin, size) == Some(corner)
    ensures FromCorners(origin, corner) == URect(origin, corner)
    ensures FromCorners(origin, corner).max.x - FromCorners(origin, corner).min.x == size.x
    ensures FromCorners(origin, corner).max.y - FromCorners(origin, corner).min.y == size.y
  {
  }

  /** `TextureAtlasLayout`: the size of the sheet and its rectangles, where a
      rectangle's index is its position in `textures`. */
  datatype TextureAtlasLayout = TextureAtlasLayout(size: UVec2, textures: seq<URect>)

  /** `TextureAtlasLayout::new_empty` */
  function NewEmpty(size: UVec2): (l: TextureAtlasLayout)
    ensures l.size == size && |l.textures| == 0
  {
    TextureAtlasLayout(size, [])
  }

  /** `TextureAtlasLayout::add_texture`: appends `rect` and returns the index
      it was given. */
  function AddTexture(layout: TextureAtlasLayout, rect: URect): (r: (TextureAtlasLayout, nat))
    ensures r.1 == |layout.textures| && |r.0.textures| == r.1 + 1
    ensures r.0.textures[r.1] == rect
    ensures forall i :: 0 <= i < r.1 ==> r.0.textures[i] == layout.textures[i]
    ensures r.0.size == layout.size
  {
    (TextureAtlasLayout(layout.size, layout.textures + [rect]), |layout.textures|)
  }
}

=== FILE: int_parse.dfy ===
/**
 * Parsing an attribute's text as an unsigned 32-bit integer, following the
 * standard library's `str::parse::<u32>`: an optional leading `+`, then one
 * or more ASCII decimal digits, with leading zeros allowed, no white space
 * and no sign `-`. Digits are consumed left to right; the first character
 * that is not a digit, or the first digit that takes the value past
 * `u32::MAX`, decides the error.
 */
module IntParse {

  import opened Wrappers
  import opened BoundedInts

  /** The kinds of `ParseIntError` an unsigned parse can produce. */
  datatype IntErrorKind = Empty | InvalidDigit | PosOverflow

  predicate IsDigit(c: char) {
    '0' <= c <= '9'
  }

  function DigitValue(c: char): (d: nat)
    requires IsDigit(c)
    ensures d < 10
  {
    c as int - '0' as int
  }

  function DigitChar(d: nat): (c: char)
    requires d < 10
    ensures IsDigit(c) && DigitValue(c) == d
  {
    ('0' as int + d) as char
  }

  /** One step of the digit loop: shift `acc` by one decimal place and add `c`. */
  function StepDigit(acc: U32, c: char): (r: Result<U32, IntErrorKind>)
    ensures r.Success? <==> IsDigit(c) && acc * 10 + DigitValue(c) < U32_LIMIT
    ensures r.Success? ==> r.value == acc * 10 + DigitValue(c)
    ensures r.Failure? ==> (r.error == InvalidDigit <==> !IsDigit(c))
  {
    if !IsDigit(c) then Failure(InvalidDigit)
    else if acc * 10 + DigitValue(c) >= U32_LIMIT then Failure(PosOverflow)
    else Success(acc * 10 + DigitValue(c))
  }

  /** Runs the digit loop over `digits`, starting from `acc`. */
  function Accumulate(digits: string, acc: U32): (r: Result<U32, IntErrorKind>)
    ensures r.Success? ==> forall i :: 0 <= i < |digits| ==> IsDigit(digits[i])
    ensures r.Failure? ==> r.error != Empty
    decreases |digits|
  {
    if |digits| == 0 then Success(acc)
    else
      var next :- StepDigit(acc, digits[0]);
      Accumulate(digits[1..], next)
  }

  /** `str::parse::<u32>` */
  function ParseU32(s: string): (r: Result<U32, IntErrorKind>)
    ensures r == Failure(Empty) <==> |s| == 0
    ensures |s| > 0 && s[0] == '-' ==> r == Failure(InvalidDigit)
    ensures r.Success? ==> |s| > 0 && IsDigit(s[|s| - 1])
    ensures r.Success? ==> forall i :: 0 < i < |s| ==> IsDigit(s[i])
    ensures r.Success? ==> s[0] == '+' || IsDigit(s[0])
  {
    if |s| == 0 then Failure(Empty)
    else if |s| == 1 && (s[0] == '+' || s[0] == '-') then Failure(InvalidDigit)
    else if s[0] == '+' then Accumulate(s[1..], 0)
    else Accumulate(s, 0)
  }

  predicate AllDigits(ds: string) {
    forall i :: 0 <= i < |ds| ==> IsDigit(ds[i])
  }

  /** The number a string of decimal digits denotes, most significant
      digit first; leading zeros add nothing. */
  function DecimalValue(ds: string): nat
    requires AllDigits(ds)
  {
    if |ds| == 0 then 0 else DecimalValue(ds[..|ds| - 1]) * 10 + DigitValue(ds[|ds| - 1])
  }

  /** The digits of `s` after an optional leading `+`. */
  function Unsigned(s: string): string {
    if |s| > 0 && s[0] == '+' then s[1..] else s
  }

  /** Running the digit loop over `a + b` runs it over `a`, then, unless
      that failed, over `b` from where it stopped. */
  lemma {:induction false} AccumulateAppend(a: string, b: string, acc: U32)
    ensures Accumulate(a + b, acc) ==
            match Accumulate(a, acc)
            case Failure(e) => Failure(e)
            case Success(v) => Accumulate(b, v)
    decreases |a|
  {
    if |a| == 0 {
      assert a + b == b;
    } else {
      assert (a + b)[0] == a[0];
      assert (a + b)[1..] == a[1..] + b;
      var next := StepDigit(acc, a[0]);
      if next.Success? {
        AccumulateAppend(a[1..], b, next.value);
      }
    }
  }

  /** Over decimal digits the digit loop computes their value, and fails
      with an overflow exactly when that value does not fit in a u32. */
  lemma {:induction false} AccumulateDecimal(ds: string)
    requires AllDigits(ds)
    ensures Accumulate(ds, 0).Success? <==> DecimalValue(ds) < U32_LIMIT
    ensures Accumulate(ds, 0).Success? ==> Accumulate(ds, 0).value == DecimalValue(ds)
    ensures Accumulate(ds, 0).Failure? ==> Accumulate(ds, 0).error == PosOverflow
    decreases |ds|
  {
    if |ds| > 0 {
      var front, c := ds[..|ds| - 1], ds[|ds| - 1];
      assert front + [c] == ds;
      AccumulateDecimal(front);
      AccumulateSnoc(front, c, 0);
    }
  }

  /**
   * The value and the outcome of a parse: it succeeds exactly when the text
   * after an optional leading `+` is a non-empty run of decimal digits
   * whose value is below 2^32, and then yields that value (so `"007"`
   * gives 7); a run of digits whose value is too large fails with
   * `PosOverflow`.
   */
  lemma ParseU32Decimal(s: string)
    ensures ParseU32(s).Success? <==>
            |Unsigned(s)| > 0 && AllDigits(Unsigned(s)) && DecimalValue(Unsigned(s)) < U32_LIMIT
    ensures ParseU32(s).Success? ==> ParseU32(s).value == DecimalValue(Unsigned(s))
    ensures |Unsigned(s)| > 0 && AllDigits(Unsigned(s)) && DecimalValue(Unsigned(s)) >= U32_LIMIT
            ==> ParseU32(s) == Failure(PosOverflow)
  {
    var ds := Unsigned(s);
    if AllDigits(ds) {
      AccumulateDecimal(ds);
    }
  }

  /** The first character after an optional leading `+` that is not a
      digit decides the error, `InvalidDigit`, as long as the digits before
      it still fit in a u32. */
  lemma ParseU32InvalidDigit(s: string, i: nat)
    requires i < |Unsigned(s)| && !IsDigit(Unsigned(s)[i])
    requires AllDigits(Unsigned(s)[..i]) && DecimalValue(Unsigned(s)[..i]) < U32_LIMIT
    ensures ParseU32(s) == Failure(InvalidDigit)
  {
    var ds := Unsigned(s);
    AccumulateDecimal(ds[..i]);
    assert ds == ds[..i] + ds[i..];
    AccumulateAppend(ds[..i], ds[i..], 0);
    assert ds[i..][0] == ds[i];
  }

  /** Leading zeros and a leading `+` are accepted; a stray character is
      an invalid digit. */
  lemma ParseU32Examples()
    ensures ParseU32("007") == Success(7)
    ensures ParseU32("+12") == Success(12)
    ensures ParseU32("1x") == Failure(InvalidDigit)
    ensures ParseU32("+") == Failure(InvalidDigit)
  {
  }

  /** The canonical decimal rendering of `n`: no sign, no leading zeros. */
  function ToDecimal(n: nat): (s: string)
    ensures |s| > 0
    ensures forall i :: 0 <= i < |s| ==> IsDigit(s[i])
  {
    if n < 10 then [DigitChar(n)] else ToDecimal(n / 10) + [DigitChar(n % 10)]
  }

  /** Appending one character runs one more step of the digit loop. */
  lemma {:induction false} AccumulateSnoc(digits: string, c: char, acc: U32)
    ensures Accumulate(digits + [c], acc) ==
            match Accumulate(digits, acc)
            case Failure(e) => Failure(e)
            case Success(v) => StepDigit(v, c)
    decreases |digits|
  {
    if |digits| == 0 {
      assert digits + [c] == [c];
      assert [c][1..] == [];
    } else {
      assert (digits + [c])[0] == digits[0];
      assert (digits + [c])[1..] == digits[1..] + [c];
      var next := StepDigit(acc, digits[0]);
      if next.Success? {
        AccumulateSnoc(digits[1..], c, next.value);
      }
    }
  }

  /** The parser reads back every value it can return from its decimal
      rendering. */
  lemma {:induction false} AccumulateToDecimal(n: U32)
    ensures Accumulate(ToDecimal(n), 0) == Success(n)
  {
    if n < 10 {
      assert ToDecimal(n)[1..] == [];
    } else {
      AccumulateToDecimal(n / 10);
      AccumulateSnoc(ToDecimal(n / 10), DigitChar(n % 10), 0);
    }
  }

  /** Round trip: every u32 value survives rendering and parsing. */
  lemma ParseU32RoundTrip(n: U32)
    ensures ParseU32(ToDecimal(n)) == Success(n)
    ensures ParseU32(['+'] + ToDecimal(n)) == Success(n)
  {
    AccumulateToDecimal(n);
    var s := ToDecimal(n);
    assert IsDigit(s[0]);
    assert (['+'] + s)[1..] == s;
  }

  /** The digit loop over the rendering of a value past `u32::MAX` stops
      with an overflow. */
  lemma {:induction false} AccumulateOverflow(n: nat)
    requires n >= U32_LIMIT
    ensures Accumulate(ToDecimal(n), 0) == Failure(PosOverflow)
  {
    if n / 10 >= U32_LIMIT {
      AccumulateOverflow(n / 10);
      AccumulateSnoc(ToDecimal(n / 10), DigitChar(n % 10), 0);
    } else {
      AccumulateToDecimal(n / 10);
      AccumulateSnoc(ToDecimal(n / 10), DigitChar(n % 10), 0);
    }
  }

  /** The decimal rendering of a number too large for u32 fails with
      `PosOverflow`, never with a wrapped-around value. */
  lemma ParseU32Overflow(n: nat)
    requires n >= U32_LIMIT
    ensures ParseU32(ToDecimal(n)) == Failure(PosOverflow)
  {
    AccumulateOverflow(n);
    var s := ToDecimal(n);
    assert IsDigit(s[0]);
  }
}

=== FILE: layout_builder.dfy ===
/**
 * The layout builder (`parse_texture_atlas`): consumes the children of an
 * atlas element, turning each `SubTexture` element into a rectangle appended
 * to the layout and an entry from its name to the rectangle's index.
 *
 * The event reader the builder shares with the loader is an explicit cursor:
 * the builder receives the position just inside the atlas element and hands
 * back the position where the loader resumes.
 */
module LayoutBuilder {

  import opened Wrappers
  import opened BoundedInts
  import opened IntParse
  import opened XmlEvents
  import opened Geometry
  import opened AtlasErrors

  /** One decoded `SubTexture`: its name and its rectangle. */
  datatype Entry = Entry(name: string, rect: URect)

  /** Looks up a numeric attribute of a `SubTexture` and parses it as u32. */
  function Field(attrs: map<string, string>, key: string): (r: Result<U32, AtlasError>)
    ensures key !in attrs ==> r == Failure(MissingAttribute("SubTexture", key))
    ensures key in attrs ==>
              match ParseU32(attrs[key])
              case Success(v) => r == Success(v)
              case Failure(k) => r == Failure(ParseError(k))
  {
    if key !in attrs then Failure(MissingAttribute("SubTexture", key))
    else
      match ParseU32(attrs[key])
      case Success(v) => Success(v)
      case Failure(k) => Failure(ParseError(k))
  }

  /** Decodes one `SubTexture` from its attribute table (see
      `DecodeSubTextureChecks` for the order in which its checks fire). */
  function DecodeSubTexture(attrs: map<string, string>): (r: Result<Entry, AtlasError>)
    ensures r.Failure? ==> r.error.MissingAttribute? || r.error.ParseError? || r.error.SizeOverflow?
  {
    if "name" !in attrs then Failure(MissingAttribute("SubTexture", "Name"))
    else
      var x :- Field(attrs, "x");
      var y :- Field(attrs, "y");
      var width :- Field(attrs, "width");
      var height :- Field(attrs, "height");
      var origin := UVec2(x, y);
      var size := UVec2(width, height);
      match CheckedAdd(origin, size)
      case None => Failure(SizeOverflow)
      case Some(corner) => Success(Entry(attrs["name"], FromCorners(origin, corner)))
  }

  /**
   * The checks of `DecodeSubTexture` fire in a fixed order and the first
   * failure is the result: `name` (reported with a capital N), then `x`,
   * `y`, `width` and `height`, each either missing or not a u32, and last
   * the far corner overflowing u32. A success carries the name and the
   * rectangle `[(x, y), (x + width, y + height))`.
   */
  lemma DecodeSubTextureChecks(attrs: map<string, string>)
    ensures var r := DecodeSubTexture(attrs);
            "name" !in attrs ==> r == Failure(MissingAttribute("SubTexture", "Name"))
    ensures var r := DecodeSubTexture(attrs);
            "name" in attrs && Field(attrs, "x").Failure? ==> r == Failure(Field(attrs, "x").error)
    ensures var r := DecodeSubTexture(attrs);
            "name" in attrs && Field(attrs, "x").Success? && Field(attrs, "y").Failure?
            ==> r == Failure(Field(attrs, "y").error)
    ensures var r := DecodeSubTexture(attrs);
            "name" in attrs && Field(attrs, "x").Success? && Field(attrs, "y").Success?
            && Field(attrs, "width").Failure?
            ==> r == Failure(Field(attrs, "width").error)
    ensures var r := DecodeSubTexture(attrs);
            "name" in attrs && Field(attrs, "x").Success? && Field(attrs, "y").Success?
            && Field(attrs, "width").Success? && Field(attrs, "height").Failure?
            ==> r == Failure(Field(attrs, "height").error)
    ensures var r := DecodeSubTexture(attrs);
            && "name" in attrs
            && Field(attrs, "x").Success? && Field(attrs, "y").Success?
            && Field(attrs, "width").Success? && Field(attrs, "height").Success?
            && (|| Field(attrs, "x").value + Field(attrs, "width").value >= U32_LIMIT
                || Field(attrs, "y").value + Field(attrs, "height").value >= U32_LIMIT)
            ==> r == Failure(SizeOverflow)
    ensures var r := DecodeSubTexture(attrs);
            r.Success? <==>
              && "name" in attrs
              && Field(attrs, "x").Success? && Field(attrs, "y").Success?
              && Field(attrs, "width").Success? && Field(attrs, "height").Success?
              && Field(attrs, "x").value + Field(attrs, "width").value < U32_LIMIT
              && Field(attrs, "y").value + Field(attrs, "height").value < U32_LIMIT
    ensures var r := DecodeSubTexture(attrs);
            r.Success? ==>
              && r.value.name == attrs["name"]
              && r.value.rect.min == UVec2(Field(attrs, "x").value, Field(attrs, "y").value)
              && r.value.rect.max.x == Field(attrs, "x").value + Field(attrs, "width").value
              && r.value.rect.max.y == Field(attrs, "y").value + Field(attrs, "height").value
  {
    var r := DecodeSubTexture(attrs);
    if r.Success? {
      var origin := UVec2(Field(attrs, "x").value, Field(attrs, "y").value);
      var size := UVec2(Field(attrs, "width").value, Field(attrs, "height").value);
      SpanFromOrigin(origin, size, CheckedAdd(origin, size).value);
    }
  }

  /** What the builder hands back: the layout, the name table, the names of
      the unexpected child elements it skipped (the warnings), and the cursor
      at which the loader resumes. */
  datatype Built = Built(
    layout: TextureAtlasLayout,
    names: map<string, nat>,
    unexpected: seq<QName>,
    cursor: nat)

  /** The events at which the builder stops: malformed markup, the end of
      the document, or the end tag whose full name is the atlas element's. */
  predicate Terminates(e: Event, parent: QName) {
    e.Malformed? || e.EndDocument? || (e.End? && e.name == parent)
  }

  /** The builder's loop, from `cursor` on, with the layout, table and
      warnings built so far. */
  function Build(events: seq<Event>, cursor: nat, parent: QName, layout: TextureAtlasLayout,
                 names: map<string, nat>, unexpected: seq<QName>): (r: Result<Built, AtlasError>)
    requires cursor <= |events|
    ensures r.Success? ==> cursor <= r.value.cursor <= |events|
    ensures r.Success? ==> r.value.layout.size == layout.size
    ensures r.Failure? ==>
              r.error.Xml? || r.error.MissingAttribute? || r.error.ParseError? || r.error.SizeOverflow?
    decreases |events| - cursor
  {
    match At(events, cursor)
    case Malformed => Failure(Xml)
    case EndDocument => Success(Built(layout, names, unexpected, cursor))
    case Start(name, attributes) =>
      if name.local == "SubTexture" then
        var entry :- DecodeSubTexture(AttrMap(attributes));
        var (layout', index) := AddTexture(layout, entry.rect);
        Build(events, cursor + 1, parent, layout', names[entry.name := index], unexpected)
      else
        Build(events, cursor + 1, parent, layout, names, unexpected + [name])
    case End(name) =>
      if name == parent then Success(Built(layout, names, unexpected, cursor + 1))
      else Build(events, cursor + 1, parent, layout, names, unexpected)
    case Other => Build(events, cursor + 1, parent, layout, names, unexpected)
  }

  /** `parse_texture_atlas`: builds the layout of a sheet of size `sheet`
      from the children of the element named `parent`, starting just inside
      it. */
  function ParseTextureAtlas(events: seq<Event>, cursor: nat, parent: QName, sheet: UVec2)
    : (r: Result<Built, AtlasError>)
    requires cursor <= |events|
    ensures r.Success? ==> cursor <= r.value.cursor <= |events|
    ensures r.Success? ==> r.value.layout.size == sheet
  {
    Build(events, cursor, parent, NewEmpty(sheet), map[], [])
  }

  // ---------------------------------------------------------------------
  // An independent description of the builder's result: where it stops,
  // which children it decodes, and how names map to indices.
  // ---------------------------------------------------------------------

  /** The position of the first terminating event at or after `pos`. */
  function Extent(events: seq<Event>, pos: nat, parent: QName): (stop: nat)
    requires pos <= |events|
    ensures pos <= stop <= |events|
    ensures Terminates(At(events, stop), parent)
    ensures forall k :: pos <= k < stop ==> !Terminates(events[k], parent)
    decreases |events| - pos
  {
    if Terminates(At(events, pos), parent) then pos else Extent(events, pos + 1, parent)
  }

  /** The children decoded so far: their entries and the skipped elements. */
  datatype Scan = Scan(entries: seq<Entry>, unexpected: seq<QName>)

  predicate IsSubTextureStart(e: Event) {
    e.Start? && e.name.local == "SubTexture"
  }

  /** Adds the child event `ev` in front of the scan `rest` of the events
      after it; a `SubTexture` that fails to decode decides the error. */
  function ScanStep(ev: Event, rest: Result<Scan, AtlasError>): Result<Scan, AtlasError> {
    match ev
    case Start(name, attributes) =>
      if name.local == "SubTexture" then
        var entry :- DecodeSubTexture(AttrMap(attributes));
        var r :- rest;
        Success(Scan([entry] + r.entries, r.unexpected))
      else
        var r :- rest;
        Success(Scan(r.entries, [name] + r.unexpected))
    case _ => rest
  }

  /** Decodes every `SubTexture` start element of `evs` in document order and
      collects the other start elements; the first failing `SubTexture`
      decides the error. */
  function ScanChildren(evs: seq<Event>): Result<Scan, AtlasError>
    decreases |evs|
  {
    if |evs| == 0 then Success(Scan([], [])) else ScanStep(evs[0], ScanChildren(evs[1..]))
  }

  /** A successful scan has no entries exactly when no event is a
      `SubTexture` start element. */
  lemma {:induction false} ScanChildrenEmpty(evs: seq<Event>)
    requires ScanChildren(evs).Success?
    ensures |ScanChildren(evs).value.entries| == 0 <==>
            forall i :: 0 <= i < |evs| ==> !IsSubTextureStart(evs[i])
    decreases |evs|
  {
    if |evs| > 0 {
      ScanChildrenEmpty(evs[1..]);
      assert forall i :: 1 <= i < |evs| ==> evs[i] == evs[1..][i - 1];
    }
  }

  /** The rectangles of `entries`, in order. */
  function Rects(entries: seq<Entry>): seq<URect>
  {
    seq(|entries|, i requires 0 <= i < |entries| => entries[i].rect)
  }

  /** Entry `i` is the last one in `entries` named `name`. */
  ghost predicate IsLastEntry(entries: seq<Entry>, i: int, name: string) {
    && 0 <= i < |entries|
    && entries[i].name == name
    && forall j :: i < j < |entries| ==> entries[j].name != name
  }

  /** The table from each name to the index of its last entry: the table of
      all but the last entry, updated with the last one. */
  function IndexOf(entries: seq<Entry>): map<string, nat>
    decreases |entries|
  {
    if |entries| == 0 then map[]
    else IndexOf(entries[..|entries| - 1])[entries[|entries| - 1].name := |entries| - 1]
  }

  /** The names in the table are exactly the entries' names, and each maps
      to the index of its last entry. */
  lemma {:induction false} IndexOfLastWins(entries: seq<Entry>)
    ensures IndexOf(entries).Keys == set i | 0 <= i < |entries| :: entries[i].name
    ensures forall name :: name in IndexOf(entries) ==> IsLastEntry(entries, IndexOf(entries)[name], name)
    decreases |entries|
  {
    if |entries| > 0 {
      var n := |entries| - 1;
      IndexOfLastWins(entries[..n]);
      assert forall i :: 0 <= i < n ==> entries[..n][i] == entries[i];
    }
  }

  /** The builder's output for the children described by `scan`, resuming
      the loader at `cursor`. */
  function Assemble(sheet: UVec2, scan: Scan, cursor: nat): Built {
    Built(TextureAtlasLayout(sheet, Rects(scan.entries)), IndexOf(scan.entries), scan.unexpected, cursor)
  }

  /** The builder's result as described by `Extent`, `ScanChildren`,
      `Rects` and `IndexOf`, after `prior` has already been consumed. */
  function ByScan(events: seq<Event>, pos: nat, parent: QName, sheet: UVec2, prior: Scan)
    : Result<Built, AtlasError>
    requires pos <= |events|
  {
    var stop := Extent(events, pos, parent);
    match ScanChildren(events[pos..stop])
    case Failure(e) => Failure(e)
    case Success(s) =>
      if At(events, stop).Malformed? then Failure(Xml)
      else
        Success(Assemble(sheet, Scan(prior.entries + s.entries, prior.unexpected + s.unexpected),
                         if At(events, stop).End? then stop + 1 else stop))
  }

  lemma IndexOfSnoc(entries: seq<Entry>, e: Entry)
    ensures IndexOf(entries + [e]) == IndexOf(entries)[e.name := |entries|]
  {
    assert (entries + [e])[..|entries|] == entries;
  }

  /** Past an event that neither stops nor starts an element, `ByScan` is
      unchanged. */
  lemma ByScanSkip(events: seq<Event>, pos: nat, parent: QName, sheet: UVec2, prior: Scan)
    requires pos < |events| && !Terminates(events[pos], parent) && !events[pos].Start?
    ensures ByScan(events, pos, parent, sheet, prior) == ByScan(events, pos + 1, parent, sheet, prior)
  {
    var stop := Extent(events, pos, parent);
    assert events[pos..stop][1..] == events[pos + 1..stop];
  }

  /** Past a start element that is not a `SubTexture`, `ByScan` records its
      name as unexpected. */
  lemma ByScanUnexpected(events: seq<Event>, pos: nat, parent: QName, sheet: UVec2, prior: Scan)
    requires pos < |events| && events[pos].Start? && !IsSubTextureStart(events[pos])
    ensures ByScan(events, pos, parent, sheet, prior)
            == ByScan(events, pos + 1, parent, sheet,
                      Scan(prior.entries, prior.unexpected + [events[pos].name]))
  {
    var stop := Extent(events, pos, parent);
    var tail := events[pos + 1..stop];
    assert events[pos..stop][1..] == tail;
    if ScanChildren(tail).Success? {
      var s := ScanChildren(tail).value;
      assert prior.unexpected + [events[pos].name] + s.unexpected
             == prior.unexpected + ([events[pos].name] + s.unexpected);
    }
  }

  /** At a `SubTexture`, `ByScan` fails with its decoding error or goes on
      with its entry appended. */
  lemma ByScanSubTexture(events: seq<Event>, pos: nat, parent: QName, sheet: UVec2, prior: Scan)
    requires pos < |events| && IsSubTextureStart(events[pos])
    ensures ByScan(events, pos, parent, sheet, prior)
            == match DecodeSubTexture(AttrMap(events[pos].attributes))
               case Failure(e) => Failure(e)
               case Success(entry) =>
                 ByScan(events, pos + 1, parent, sheet, Scan(prior.entries + [entry], prior.unexpected))
  {
    var stop := Extent(events, pos, parent);
    assert stop == Extent(events, pos + 1, parent);
    var tail := events[pos + 1..stop];
    assert events[pos..stop][1..] == tail;
    var rest := ScanChildren(tail);
    assert ScanChildren(events[pos..stop]) == ScanStep(events[pos], rest);
    var d := DecodeSubTexture(AttrMap(events[pos].attributes));
    if d.Failure? {
      assert ScanStep(events[pos], rest) == Failure(d.error);
      assert ByScan(events, pos, parent, sheet, prior) == Failure(d.error);
    } else {
      var next := Scan(prior.entries + [d.value], prior.unexpected);
      if rest.Failure? {
        assert ScanStep(events[pos], rest) == Failure(rest.error);
        assert ByScan(events, pos, parent, sheet, prior) == Failure(rest.error);
        assert ByScan(events, pos + 1, parent, sheet, next) == Failure(rest.error);
      } else {
        var s := rest.value;
        assert ScanStep(events[pos], rest) == Success(Scan([d.value] + s.entries, s.unexpected));
        assert prior.entries + ([d.value] + s.entries) == next.entries + s.entries;
      }
    }
  }

  /** The loop, started in the state `prior` leaves, computes `ByScan`. */
  lemma {:induction false} BuildByScan(events: seq<Event>, pos: nat, parent: QName, sheet: UVec2,
                                       prior: Scan)
    requires pos <= |events|
    ensures Build(events, pos, parent, TextureAtlasLayout(sheet, Rects(prior.entries)),
                  IndexOf(prior.entries), prior.unexpected)
            == ByScan(events, pos, parent, sheet, prior)
    decreases |events| - pos
  {
    if Terminates(At(events, pos), parent) {
      var stop := Extent(events, pos, parent);
      assert events[pos..stop] == [];
      assert prior.entries + [] == prior.entries;
      assert prior.unexpected + [] == prior.unexpected;
    } else if IsSubTextureStart(events[pos]) {
      ByScanSubTexture(events, pos, parent, sheet, prior);
      var d := DecodeSubTexture(AttrMap(events[pos].attributes));
      if d.Success? {
        var next := Scan(prior.entries + [d.value], prior.unexpected);
        assert Rects(prior.entries) + [d.value.rect] == Rects(next.entries);
        IndexOfSnoc(prior.entries, d.value);
        BuildByScan(events, pos + 1, parent, sheet, next);
      }
    } else if events[pos].Start? {
      ByScanUnexpected(events, pos, parent, sheet, prior);
      BuildByScan(events, pos + 1, parent, sheet,
                  Scan(prior.entries, prior.unexpected + [events[pos].name]));
    } else {
      ByScanSkip(events, pos, parent, sheet, prior);
      BuildByScan(events, pos + 1, parent, sheet, prior);
    }
  }

  /**
   * `parse_texture_atlas` stops at the first malformed event, end of
   * document or end tag equal to `parent`; it succeeds unless that event is
   * malformed or some `SubTexture` before it fails to decode; its layout
   * holds the rectangles of those `SubTexture`s in order and its table maps
   * each name to the index of the name's last `SubTexture`.
   */
  lemma ParseTextureAtlasByScan(events: seq<Event>, pos: nat, parent: QName, sheet: UVec2)
    requires pos <= |events|
    ensures ParseTextureAtlas(events, pos, parent, sheet) == ByScan(events, pos, parent, sheet, Scan([], []))
  {
    assert Rects([]) == [];
    BuildByScan(events, pos, parent, sheet, Scan([], []));
  }

  /** The children the builder consumes: from `pos` up to where it stops. */
  function Children(events: seq<Event>, pos: nat, parent: QName): seq<Event>
    requires pos <= |events|
  {
    events[pos..Extent(events, pos, parent)]
  }

  /**
   * On success the layout has the sheet's size, holds one rectangle per
   * `SubTexture` child in document order, and every name maps to a valid
   * index whose rectangle is the one of the last `SubTexture` with that
   * name; the names are exactly those of the `SubTexture` children.
   */
  lemma ParseTextureAtlasIndexed(events: seq<Event>, pos: nat, parent: QName, sheet: UVec2)
    requires pos <= |events|
    requires ParseTextureAtlas(events, pos, parent, sheet).Success?
    ensures ScanChildren(Children(events, pos, parent)).Success?
    ensures var built := ParseTextureAtlas(events, pos, parent, sheet).value;
            var entries := ScanChildren(Children(events, pos, parent)).value.entries;
            && built.layout.size == sheet
            && |built.layout.textures| == |entries|
            && (forall i :: 0 <= i < |entries| ==> built.layout.textures[i] == entries[i].rect)
            && built.names.Keys == (set i | 0 <= i < |entries| :: entries[i].name)
            && (forall name :: name in built.names ==>
                  && built.names[name] < |built.layout.textures|
                  && IsLastEntry(entries, built.names[name], name)
                  && built.layout.textures[built.names[name]] == entries[built.names[name]].rect)
  {
    ParseTextureAtlasByScan(events, pos, parent, sheet);
    var s := ScanChildren(Children(events, pos, parent)).value;
    assert [] + s.entries == s.entries;
    IndexOfLastWins(s.entries);
  }

  /** A body without `SubTexture` children, and only such a body, yields an
      empty layout and an empty name table. */
  lemma ParseTextureAtlasEmptyBody(events: seq<Event>, pos: nat, parent: QName, sheet: UVec2)
    requires pos <= |events|
    requires ParseTextureAtlas(events, pos, parent, sheet).Success?
    ensures var built := ParseTextureAtlas(events, pos, parent, sheet).value;
            var children := Children(events, pos, parent);
            && (|built.layout.textures| == 0 <==> forall i :: 0 <= i < |children| ==> !IsSubTextureStart(children[i]))
            && (built.names == map[] <==> forall i :: 0 <= i < |children| ==> !IsSubTextureStart(children[i]))
  {
    ParseTextureAtlasIndexed(events, pos, parent, sheet);
    ScanChildrenEmpty(Children(events, pos, parent));
    var entries := ScanChildren(Children(events, pos, parent)).value.entries;
    var built := ParseTextureAtlas(events, pos, parent, sheet).value;
    if |entries| > 0 {
      assert entries[0].name in built.names;
    }
  }

  /** Of two `SubTexture` children with the same name, the earlier one's
      rectangle stays in the layout but no name maps to its index. */
  lemma ParseTextureAtlasDuplicateName(events: seq<Event>, pos: nat, parent: QName, sheet: UVec2,
                                      i: nat, j: nat)
    requires pos <= |events|
    requires ParseTextureAtlas(events, pos, parent, sheet).Success?
    requires ScanChildren(Children(events, pos, parent)).Success?
    requires var entries := ScanChildren(Children(events, pos, parent)).value.entries;
             i < j < |entries| && entries[i].name == entries[j].name
    ensures var built := ParseTextureAtlas(events, pos, parent, sheet).value;
            var entries := ScanChildren(Children(events, pos, parent)).value.entries;
            && i < |built.layout.textures| && built.layout.textures[i] == entries[i].rect
            && entries[i].name in built.names && built.names[entries[i].name] >= j
            && forall name :: name in built.names ==> built.names[name] != i
  {
    ParseTextureAtlasIndexed(events, pos, parent, sheet);
    var entries := ScanChildren(Children(events, pos, parent)).value.entries;
    var built := ParseTextureAtlas(events, pos, parent, sheet).value;
    assert entries[i].name in built.names;
  }

  /** The builder stops at the parent's end tag and resumes the loader after
      it; an end tag with the same local name but another namespace or
      prefix does not stop it. */
  lemma ParseTextureAtlasStopsAtParent(events: seq<Event>, pos: nat, parent: QName, sheet: UVec2)
    requires pos <= |events|
    requires ParseTextureAtlas(events, pos, parent, sheet).Success?
    ensures var c := ParseTextureAtlas(events, pos, parent, sheet).value.cursor;
            || (pos < c && events[c - 1] == End(parent)
                && forall k :: pos <= k < c - 1 ==> events[k] != End(parent))
            || (At(events, c).EndDocument?
                && forall k :: pos <= k < c ==> events[k] != End(parent))
  {
    ParseTextureAtlasByScan(events, pos, parent, sheet);
    var stop := Extent(events, pos, parent);
    if !At(events, stop).End? {
      assert ParseTextureAtlas(events, pos, parent, sheet).value.cursor == stop;
    }
  }

  /** The attributes of the example's `SubTexture`. */
  function ExampleAttributes(): seq<Attribute> {
    [Attribute(QName("name", None, None), "blue_button00.png"),
     Attribute(QName("x", None, None), "0"),
     Attribute(QName("y", None, None), "0"),
     Attribute(QName("width", None, None), "190"),
     Attribute(QName("height", None, None), "49")]
  }

  lemma ExampleTable()
    ensures AttrMap(ExampleAttributes())
            == map["name" := "blue_button00.png", "x" := "0", "y" := "0", "width" := "190", "height" := "49"]
  {
    var attrs := ExampleAttributes();
    var a1 := [attrs[0]];
    assert a1[..0] == [];
    assert AttrMap(a1) == map["name" := "blue_button00.png"];
    var a2 := a1 + [attrs[1]];
    assert a2[..1] == a1;
    assert AttrMap(a2) == map["name" := "blue_button00.png", "x" := "0"];
    var a3 := a2 + [attrs[2]];
    assert a3[..2] == a2;
    assert AttrMap(a3) == map["name" := "blue_button00.png", "x" := "0", "y" := "0"];
    var a4 := a3 + [attrs[3]];
    assert a4[..3] == a3;
    assert AttrMap(a4) == map["name" := "blue_button00.png", "x" := "0", "y" := "0", "width" := "190"];
    assert attrs[..4] == a4;
  }

  /** The numeric attributes of the example parse as 0, 0, 190 and 49. */
  lemma ExampleFields()
    ensures var table := AttrMap(ExampleAttributes());
            && Field(table, "x") == Success(0) && Field(table, "y") == Success(0)
            && Field(table, "width") == Success(190) && Field(table, "height") == Success(49)
  {
    ExampleTable();
    assert ParseU32("0") == Success(0);
    assert ParseU32("190") == Success(190);
    assert ParseU32("49") == Success(49);
  }

  /** The example `SubTexture` decodes to the rectangle from (0, 0) to
      (190, 49). */
  lemma ExampleDecode()
    ensures DecodeSubTexture(AttrMap(ExampleAttributes()))
            == Success(Entry("blue_button00.png", URect(UVec2(0, 0), UVec2(190, 49))))
  {
    ExampleTable();
    ExampleFields();
  }

  /** The example of one `SubTexture` inside `TextureAtlas`: the table maps
      its name to index 0 and the layout holds its one rectangle. */
  lemma ParseTextureAtlasExample(sheet: UVec2)
    ensures var atlas := QName("TextureAtlas", None, None);
            var events := [Start(QName("SubTexture", None, None), ExampleAttributes()),
                           End(QName("SubTexture", None, None)), End(atlas), EndDocument];
            ParseTextureAtlas(events, 0, atlas, sheet)
            == Success(Built(TextureAtlasLayout(sheet, [URect(UVec2(0, 0), UVec2(190, 49))]),
                             map["blue_button00.png" := 0], [], 3))
  {
    var atlas := QName("TextureAtlas", None, None);
    var events := [Start(QName("SubTexture", None, None), ExampleAttributes()),
                   End(QName("SubTexture", None, None)), End(atlas), EndDocument];
    ExampleDecode();
    var layout := TextureAtlasLayout(sheet, [URect(UVec2(0, 0), UVec2(190, 49))]);
    var names := map["blue_button00.png" := 0];
    assert NewEmpty(sheet).textures + [layout.textures[0]] == layout.textures;
    assert Build(events, 2, atlas, layout, names, []) == Success(Built(layout, names, [], 3));
    assert Build(events, 1, atlas, layout, names, []) == Success(Built(layout, names, [], 3));
  }
}

=== FILE: resolver.dfy ===
/**
 * The runtime resolver (`update_atlas`): every tick, each sprite that names
 * its sub-image copies the index the name has in its atlas's table into its
 * own index, once that atlas is loaded.
 *
 * A sprite is the pair of components the system queries: the name and atlas
 * handle, and the index it writes. The asset store is the table of loaded
 * atlases; a handle that is not in it is still loading.
 */
module Resolver {

  import opened Wrappers

  datatype Handle = Handle(id: nat)

  datatype Sprite = Sprite(name: string, atlas: Handle, index: nat)

  /** The name tables of the loaded atlases. */
  type Store = map<Handle, map<string, nat>>

  /** The sprites after a tick, and the names reported as missing. */
  datatype Tick = Tick(sprites: seq<Sprite>, warnings: seq<string>)

  /** The atlas of `s` is loaded but has no entry for its name. */
  predicate IsMissing(store: Store, s: Sprite) {
    s.atlas in store && s.name !in store[s.atlas]
  }

  /** The index the sprite's name has in its loaded atlas, if any. */
  function Lookup(store: Store, s: Sprite): Option<nat> {
    if s.atlas in store && s.name in store[s.atlas] then Some(store[s.atlas][s.name]) else None
  }

  /** One sprite's step: the new sprite and, when its name is missing from
      its loaded atlas, the warning naming it. */
  function ResolveOne(store: Store, s: Sprite): (r: (Sprite, Option<string>))
    ensures r.0.name == s.name && r.0.atlas == s.atlas
    ensures r.0.index == Lookup(store, s).GetOr(s.index)
    ensures r.1.Some? <==> IsMissing(store, s)
    ensures r.1.Some? ==> r.1.value == s.name
  {
    if s.atlas in store then
      if s.name in store[s.atlas] then (s.(index := store[s.atlas][s.name]), None)
      else (s, Some(s.name))
    else (s, None)
  }

  /** `update_atlas` over the sprites in query order. */
  function UpdateAtlas(store: Store, sprites: seq<Sprite>): (r: Tick)
    ensures |r.sprites| == |sprites|
    decreases |sprites|
  {
    if |sprites| == 0 then Tick([], [])
    else
      var (head, warning) := ResolveOne(store, sprites[0]);
      var rest := UpdateAtlas(store, sprites[1..]);
      Tick([head] + rest.sprites, (if warning.Some? then [warning.value] else []) + rest.warnings)
  }

  /**
   * After a tick each sprite keeps its name and atlas; its index is the one
   * its name has in its atlas when that atlas is loaded and has the name,
   * and is unchanged otherwise. The warnings are exactly the names of the
   * sprites whose atlas is loaded but lacks their name.
   */
  lemma {:induction false} UpdateAtlasResolves(store: Store, sprites: seq<Sprite>)
    ensures var r := UpdateAtlas(store, sprites);
            forall i :: 0 <= i < |sprites| ==>
              && r.sprites[i].name == sprites[i].name
              && r.sprites[i].atlas == sprites[i].atlas
              && (sprites[i].atlas in store && sprites[i].name in store[sprites[i].atlas]
                  ==> r.sprites[i].index == store[sprites[i].atlas][sprites[i].name])
              && (sprites[i].atlas !in store || sprites[i].name !in store[sprites[i].atlas]
                  ==> r.sprites[i].index == sprites[i].index)
    ensures var r := UpdateAtlas(store, sprites);
            forall w :: w in r.warnings <==>
              exists i :: 0 <= i < |sprites| && IsMissing(store, sprites[i]) && sprites[i].name == w
    decreases |sprites|
  {
    if |sprites| > 0 {
      UpdateAtlasResolves(store, sprites[1..]);
      var r := UpdateAtlas(store, sprites);
      var rest := UpdateAtlas(store, sprites[1..]);
      assert forall i :: 1 <= i < |sprites| ==> sprites[i] == sprites[1..][i - 1] && r.sprites[i] == rest.sprites[i - 1];
      forall w | w in r.warnings
        ensures exists i :: 0 <= i < |sprites| && IsMissing(store, sprites[i]) && sprites[i].name == w
      {
        if w !in rest.warnings {
          assert IsMissing(store, sprites[0]) && sprites[0].name == w;
        } else {
          var j :| 0 <= j < |sprites[1..]| && IsMissing(store, sprites[1..][j]) && sprites[1..][j].name == w;
          assert sprites[j + 1] == sprites[1..][j];
        }
      }
      forall w | exists i :: 0 <= i < |sprites| && IsMissing(store, sprites[i]) && sprites[i].name == w
        ensures w in r.warnings
      {
        var i :| 0 <= i < |sprites| && IsMissing(store, sprites[i]) && sprites[i].name == w;
        if i > 0 {
          assert sprites[1..][i - 1] == sprites[i];
        }
      }
    }
  }

  /** Resolving is a leveling step: a second tick with nothing changed
      leaves the sprites as the first left them and reports the same
      missing names. */
  lemma {:induction false} UpdateAtlasIdempotent(store: Store, sprites: seq<Sprite>)
    ensures UpdateAtlas(store, UpdateAtlas(store, sprites).sprites) == UpdateAtlas(store, sprites)
    decreases |sprites|
  {
    if |sprites| > 0 {
      var once := UpdateAtlas(store, sprites);
      assert once.sprites[1..] == UpdateAtlas(store, sprites[1..]).sprites;
      UpdateAtlasIdempotent(store, sprites[1..]);
    }
  }

  /** Each sprite is handled on its own: resolving a concatenation resolves
      each part, and a missing name does not stop the sprites after it. */
  lemma {:induction false} UpdateAtlasSplits(store: Store, front: seq<Sprite>, back: seq<Sprite>)
    ensures UpdateAtlas(store, front + back)
            == Tick(UpdateAtlas(store, front).sprites + UpdateAtlas(store, back).sprites,
                    UpdateAtlas(store, front).warnings + UpdateAtlas(store, back).warnings)
    decreases |front|
  {
    if |front| == 0 {
      assert front + back == back;
    } else {
      var whole := front + back;
      assert whole[0] == front[0];
      assert whole[1..] == front[1..] + back;
      UpdateAtlasSplits(store, front[1..], back);
      var warning := ResolveOne(store, front[0]).1;
      var w := if warning.Some? then [warning.value] else [];
      var f1 := UpdateAtlas(store, front[1..]);
      var b := UpdateAtlas(store, back);
      assert w + (f1.warnings + b.warnings) == (w + f1.warnings) + b.warnings;
    }
  }

  /** The example of a loaded atlas mapping "a" to 3: the sprite named "a"
      gets index 3, and a sprite whose name is missing keeps its index and
      is reported, on every tick. */
  lemma UpdateAtlasExample(h: Handle, before: nat, other: nat)
    ensures var store := map[h := map["a" := 3]];
            var sprites := [Sprite("missing", h, other), Sprite("a", h, before)];
            var once := UpdateAtlas(store, sprites);
            && once == Tick([Sprite("missing", h, other), Sprite("a", h, 3)], ["missing"])
            && UpdateAtlas(store, once.sprites) == once
  {
    var store := map[h := map["a" := 3]];
    var sprites := [Sprite("missing", h, other), Sprite("a", h, before)];
    assert sprites[1..] == [Sprite("a", h, before)];
    assert sprites[1..][1..] == [];
    assert UpdateAtlas(store, sprites[1..]) == Tick([Sprite("a", h, 3)], []);
    var once := UpdateAtlas(store, sprites);
    assert once == Tick([Sprite("missing", h, other), Sprite("a", h, 3)], ["missing"]);
    UpdateAtlasIdempotent(store, sprites);
  }
}

=== FILE: wrappers.dfy ===
/** Failure-compatible Option and Result types, usable with `:-`. */
module Wrappers {

  datatype Option<+T> = None | Some(value: T) {

    predicate IsFailure() {
      None?
    }

    function PropagateFailure<U>(): Option<U>
      requires None?
    {
      None
    }

    function Extract(): T
      requires Some?
    {
      value
    }

    /** Some as Success, None as Failure with `error`. */
    function ToResult<E>(error: E): (r: Result<T, E>)
      ensures Some? ==> r == Success(value)
      ensures None? ==> r == Failure(error)
    {
      match this
      case Some(v) => Success(v)
      case None => Failure(error)
    }

    /** The value in Some, or `default` when None. */
    function GetOr(default: T): T {
      match this
      case Some(v) => v
      case None => default
    }
  }

  datatype Result<+R, +E> = Success(value: R) | Failure(error: E) {

    predicate IsFailure() {
      Failure?
    }

    function PropagateFailure<U>(): Result<U, E>
      requires Failure?
    {
      Failure(error)
    }

    function Extract(): R
      requires Success?
    {
      value
    }
  }
}

=== FILE: xml_events.dfy ===
/**
 * The already-tokenized XML input the loader consumes, and the conversion of
 * an element's attribute list into a lookup table.
 *
 * The tokenizer is not modelled: a document is the finite sequence of events
 * it would yield. A tokenizer error is the event `Malformed`. Once the
 * document has ended the tokenizer keeps answering `EndDocument`, which `At`
 * models by answering `EndDocument` past the end of the sequence.
 */
module XmlEvents {

  import opened Wrappers

  /** A qualified XML name: local part, namespace URI and prefix. Two names
      are equal only when all three parts are equal. */
  datatype QName = QName(local: string, namespace: Option<string>, prefix: Option<string>)

  datatype Attribute = Attribute(name: QName, value: string)

  datatype Event =
    | Start(name: QName, attributes: seq<Attribute>)
    | End(name: QName)
    | EndDocument
      /** The tokenizer reported a malformed document. */
    | Malformed
      /** Document start, text, comments, processing instructions, ... */
    | Other

  /** The event the tokenizer yields when asked for event number `cursor`. */
  function At(events: seq<Event>, cursor: nat): (e: Event)
    ensures !e.EndDocument? ==> cursor < |events| && e == events[cursor]
    ensures cursor >= |events| ==> e.EndDocument?
  {
    if cursor < |events| then events[cursor] else EndDocument
  }

  /** Attribute `i` is the last one in `attrs` whose local name is `key`. */
  ghost predicate IsLastNamed(attrs: seq<Attribute>, i: int, key: string)
  {
    && 0 <= i < |attrs|
    && attrs[i].name.local == key
    && forall j :: i < j < |attrs| ==> attrs[j].name.local != key
  }

  /**
   * The table from attribute local name to value that the loader collects
   * from an element's attributes, inserting them one by one into a hash
   * map: namespace and prefix are dropped.
   */
  function AttrMap(attrs: seq<Attribute>): map<string, string>
    decreases |attrs|
  {
    if |attrs| == 0 then map[]
    else
      var last := attrs[|attrs| - 1];
      AttrMap(attrs[..|attrs| - 1])[last.name.local := last.value]
  }

  /** Every attribute's local name is a key of the table, and each key holds
      the value of the last attribute with that local name. */
  lemma {:induction false} AttrMapLastWins(attrs: seq<Attribute>)
    ensures forall i :: 0 <= i < |attrs| ==> attrs[i].name.local in AttrMap(attrs)
    ensures forall key :: key in AttrMap(attrs) ==>
              exists i :: IsLastNamed(attrs, i, key) && AttrMap(attrs)[key] == attrs[i].value
    decreases |attrs|
  {
    if |attrs| > 0 {
      var n := |attrs| - 1;
      var init := attrs[..n];
      AttrMapLastWins(init);
      var m := AttrMap(attrs);
      forall key | key in m
        ensures exists i :: IsLastNamed(attrs, i, key) && m[key] == attrs[i].value
      {
        if key == attrs[n].name.local {
          assert IsLastNamed(attrs, n, key);
        } else {
          var i :| IsLastNamed(init, i, key) && AttrMap(init)[key] == init[i].value;
          assert IsLastNamed(attrs, i, key);
        }
      }
      assert forall i :: 0 <= i < n ==> attrs[i] == init[i];
    }
  }
}
